=== FILE: README.md ===
# A verified model of the ask-and-visualize app's core

The app is a small React front end over a hosted Postgres and identity
provider. A signed-in user types a question. A placeholder generator answers
it with a text and a 3D shape descriptor. The app stores the question,
answer and descriptor in a `visualizations` table and shows the user's
history, newest first. This project models the logic of that core in Dafny
and proves properties of it:

- the auth hook: password sign-in, sign-up with profile provisioning and its
  compensating sign-out, federated sign-in, sign-out, and the `user`/`loading`
  state driven by the initial session read and the auth-change listener;
- the six table operations of the data hook, over two abstract tables;
- the dashboard's `handleSubmit` and `handleLogout`;
- the settings hook: defaults, initial choice, partial update, and the effect
  that saves the settings and mirrors dark mode into the document's classes;
- the placeholder generator and the viewer's choice of geometry and colour.

Every remote call is an oracle. The identity provider's reply is an
`AuthReply` (a `{data, error}` value or a thrown exception). A database read
takes an optional transient fault. An insert takes the database's reply: the
assigned id and timestamps, or an error. The tables themselves are the ground
truth:

- `profiles` is a map from id to row, with id as primary key;
- `visualizations` is a sequence of rows in insertion order.

So a successful read always agrees with the table. An insert that repeats a
primary key fails with the unique-violation error. `.single()` with no
matching row fails with PostgREST's `PGRST116`. Each operation returns its
result or exception, the table afterwards, and the trace of calls it made
(`Base.Call`). Random draws of `Math.random()` are parameters in [0, 1).

Modules follow the source files:

| module | file | source |
|---|---|---|
| `Base` | base.dfy | shared types: `Option`, `Result`, exceptions, rows, call trace |
| `Text` | text.dfy | JavaScript `String.prototype.trim` and `includes` |
| `Tables` | tables.dfy | src/hooks/useSupabase.ts |
| `Auth` | auth.dfy | src/hooks/useAuth.ts |
| `Dashboard` | dashboard.dfy | src/pages/dashboard.tsx, lines 21-57 |
| `Preferences` | settings.dfy | src/hooks/useSettings.ts |
| `Api` | api.dfy | src/services/api.ts |
| `Viewer` | viewer.dfy | src/components/visualization/model-viewer.tsx |

The model keeps these behaviours of the code:

- Session updates have no staleness guard. A `getSession` that settles after
  a listener push overwrites the pushed user (`Auth.StaleRestoreOverwritesPush`).
- Errors reach callers as plain `Error` messages. Every `AuthError` from
  password sign-in becomes "Invalid email or password".
- A failed save hides the generated answer, because the answer is shown only
  after the insert.
- A failed history refresh is not reported separately. It ends the run in the
  same `catch` as every other failure.
- Sign-up's compensation only signs out; it deletes no identity. The sign-out's
  returned error is ignored. If the sign-out call itself throws, that
  exception replaces "Failed to create user profile", because the `await` at
  src/hooks/useAuth.ts:74 sits inside the outer `try`.

## Model

| member | source | states |
|---|---|---|
| `Text.TrimStartDropsLeadingSpace` | src/pages/dashboard.tsx:23 | `trimStart` removes a prefix made only of ECMAScript white space, and what remains is empty or starts with a non-space |
| `Text.TrimEndDropsTrailingSpace` | src/pages/dashboard.tsx:23 | `trimEnd` removes a suffix made only of white space, and what remains is empty or ends with a non-space |
| `Text.TrimIsInnerSlice` | src/pages/dashboard.tsx:23 | `trim()` yields a contiguous slice of the input that is empty or starts and ends with a non-space |
| `Text.TrimEmptyIffAllSpace` | src/pages/dashboard.tsx:23 | `question.trim()` is empty exactly when the question consists of white space only, in both directions |
| `Text.IncludesIffOccurs` | src/hooks/useAuth.ts:82 | `message.includes(sub)` holds exactly when `sub` occurs at some position of `message` |
| `Tables.CreateProfile` | src/hooks/useSupabase.ts:9-37 | lookup first. A found row is returned with no insert. Otherwise one insert of `{id, username}` is made. Only the row for `userId` can be added and no other row changes. On the insert path an insert error is rethrown and leaves the table as it was. A failed lookup over an existing row ends in the unique violation. The primary-key invariant is kept |
| `Tables.CreateProfileIdempotent` | src/hooks/useSupabase.ts:9-37 | when the second lookup succeeds, a second `createProfile` for the same id returns the first call's row, leaves the table as it was, and inserts nothing |
| `Tables.FailedLookupIsNotFound` | src/hooks/useSupabase.ts:11-19 | a lookup whose error is dropped behaves exactly like a lookup that finds no row |
| `Tables.GetProfile` | src/hooks/useSupabase.ts:39-48 | succeeds exactly when there is no fault and the row exists, and returns that row. A missing row gives `PGRST116`, and a fault is rethrown. The table is unchanged |
| `Tables.CreateThenGet` | src/hooks/useSupabase.ts:9-48 | a profile that `createProfile` returned is what `getProfile` reads back |
| `Tables.Patched` | src/hooks/useSupabase.ts:53 | the `.update(updates)` merge changes a field only when the patch mentions it, and the empty patch leaves the row as it was |
| `Tables.PatchedOverrides` | src/hooks/useSupabase.ts:53 | each field a patch mentions is taken from the patch and every other field from the row; patching twice equals patching once |
| `Tables.UpdateProfile` | src/hooks/useSupabase.ts:50-60 | only the matching row changes, to the row with the patch applied. Every other row keeps its key and contents. A missing row gives `PGRST116`. Moving onto an existing id is a unique violation. A fault is rethrown. Every error leaves the table as it was. The primary-key invariant is kept |
| `Tables.CreateVisualization` | src/hooks/useSupabase.ts:62-81 | on success one row is appended carrying the given owner, question, answer and descriptor, with the id and timestamps the database assigned (the id unused so far). Existing rows are unchanged. It succeeds exactly when the database assigns an unused id. An insert error is rethrown, a reused id is a unique violation, and on failure the table is unchanged |
| `Tables.CreateVisualizationKeepsIdsUnique` | src/hooks/useSupabase.ts:62-81 | an insert keeps the visualization ids unique |
| `Tables.Where` | src/hooks/useSupabase.ts:87 | `.eq(column, value)` keeps exactly the rows whose column holds the value, each as often as it is stored |
| `Tables.InsertByNewest` | src/hooks/useSupabase.ts:88 | inserting a row into a list ordered newest first keeps it ordered, and the result is a permutation of the list plus that row |
| `Tables.SortByNewest` | src/hooks/useSupabase.ts:88 | `.order('created_at', {ascending: false})` returns a permutation of its input in non-increasing `created_at` order |
| `Tables.GetVisualizations` | src/hooks/useSupabase.ts:83-92 | the result is newest first. It holds each of the owner's rows as often as stored and no row of any other owner. A fault is rethrown. The table is unchanged |
| `Tables.HistoryMembership` | src/hooks/useSupabase.ts:83-92 | a row is in the listing exactly when it is stored and belongs to the owner |
| `Tables.WhereUniqueId` | src/hooks/useSupabase.ts:98 | with unique ids, filtering on a stored row's id yields that row alone |
| `Tables.GetVisualization` | src/hooks/useSupabase.ts:94-103 | a returned row is stored and has the requested id. No such row gives `PGRST116`. A fault is rethrown |
| `Tables.GetVisualizationFindsStoredRow` | src/hooks/useSupabase.ts:94-103 | while ids are unique, `getVisualization` of a stored row's id returns exactly that row |
| `Tables.CreateThenGetVisualization` | src/hooks/useSupabase.ts:62-103 | a created row is read back by its id |
| `Auth.SignIn` | src/hooks/useAuth.ts:90-111 | one provider call. It succeeds exactly when the provider reports no error, and then returns `data.user`. "Invalid login credentials", and every other `AuthError`, become "Invalid email or password". Any other exception reaches the caller unchanged, so the caller never sees an `AuthError` |
| `Auth.SignUpSteps` | src/hooks/useAuth.ts:55-79 | the body of `signUp`'s `try`. The provider is called first, and a provider failure is thrown as it came, with no profile work. A later failure leaves the profiles unchanged and ends with a sign-out. It is "Failed to create user profile", or the sign-out's own exception if it throws. Success returns the provider's user with no sign-out |
| `Auth.SignUp` | src/hooks/useAuth.ts:54-88 | the provider is called first, and existing profiles are never changed. A returned user comes from an error-free reply, has a profile, and no sign-out was made |
| `Auth.SignUpProviderError` | src/hooks/useAuth.ts:54-66 | a provider error makes no profile call. An `AuthError` mentioning "already registered" becomes "An account with this email already exists", and every other error is rethrown unchanged |
| `Auth.SignUpWithoutUser` | src/hooks/useAuth.ts:68-79 | no error and no user returns null, with the provider call as the only call |
| `Auth.SignUpProvisionsOnce` | src/hooks/useAuth.ts:68-71 | with a user, `createProfile(user.id, username)` runs exactly once, right after the provider call. When it succeeds that user is returned with the table `createProfile` produced |
| `Auth.SignUpCompensates` | src/hooks/useAuth.ts:72-86 | a failed provisioning leaves the profiles as they were and ends with a sign-out. The caller gets "Failed to create user profile" unchanged by the outer catch. If the sign-out throws, its exception goes through the outer catch instead |
| `Auth.SignUpProvisionsProfile` | src/hooks/useAuth.ts:54-88 | signing up a new identity inserts exactly its profile with the given username, and the trace is sign-up, lookup, insert |
| `Auth.SignInWithProvider` | src/hooks/useAuth.ts:35-52 | one OAuth call. It succeeds exactly when there is no error, returning the provider's data. Every `AuthError` becomes "Failed to sign in with provider" and other exceptions pass unchanged |
| `Auth.SignOut` | src/hooks/useAuth.ts:113-121 | one sign-out call; it succeeds exactly when there is no error, and any error is rethrown unchanged |
| `Auth.Mount` | src/hooks/useAuth.ts:7-30 | on mount `user` is null and `loading` true, the session read is started, and exactly one listener is registered |
| `Auth.Apply` | src/hooks/useAuth.ts:11-32 | an unmounted hook takes no update, and the cleanup only removes the listener. A session read that resolves, with or without an error, or a push, sets `user` to `session?.user ?? null` and clears `loading`. A session read that throws only clears `loading`. Nothing else changes `user`, and `loading` only goes from true to false. |
| `Auth.SessionErrorIgnored` | src/hooks/useAuth.ts:15-16 | the `error` a resolved session read returns has no effect; only `data.session` is read |
| `Auth.Step` | src/hooks/useAuth.ts:11-32 | one arriving event moves the state by `Apply`. The only call it can make is the unsubscription, made exactly when a live listener is torn down |
| `Auth.Run` | src/hooks/useAuth.ts:11-32 | events are applied in arrival order. The trace only grows, by at most one unsubscription, and a removed listener stays removed |
| `Auth.LastUpdateWins` | src/hooks/useAuth.ts:15-16 | without teardown, the last event that writes `user` decides it, whatever came before, and `loading` is then false |
| `Auth.StillSubscribed` | src/hooks/useAuth.ts:27-32 | without teardown the listener stays registered |
| `Auth.ListenerBalance` | src/hooks/useAuth.ts:27-32 | across any event run after mount, the one listener is subscribed once, and it is unsubscribed once after teardown and never before |
| `Auth.TornDownIsInert` | src/hooks/useAuth.ts:32 | after teardown no event changes the state or makes a call |
| `Auth.StaleRestoreOverwritesPush` | src/hooks/useAuth.ts:27-28 | a session read that settles after a push overwrites the pushed user; the code has no staleness guard |
| `Dashboard.Refresh` | src/pages/dashboard.tsx:41-43 | a failed refresh leaves the page as it was. A successful one replaces only the history, with the owner's stored rows and nothing else, newest first |
| `Dashboard.Save` | src/pages/dashboard.tsx:31-36 | the first call after generation is the insert of `(user.id, question, answer, data)` |
| `Dashboard.HandleSubmit` | src/pages/dashboard.tsx:21-49 | a blank question or no user changes nothing and makes no call. Otherwise `loading` is written true then false, generation is the first call, no error escapes, and the question is kept as typed |
| `Dashboard.RejectsIffBlankOrSignedOut` | src/pages/dashboard.tsx:23 | the guard fires exactly for a question of white space only, or when there is no user |
| `Dashboard.GenerationFailure` | src/pages/dashboard.tsx:28 | a failed generation saves nothing. The page differs from before only in `loading`, and the trace is the generate call alone |
| `Dashboard.PersistenceFailure` | src/pages/dashboard.tsx:31-39 | a failed insert leaves the table as it was, and answer, descriptor and history keep their old values. The trace is generate then insert, with no refresh |
| `Dashboard.SavedRunTrace` | src/pages/dashboard.tsx:28-42 | after a successful insert the calls are exactly generate, insert, list, in that order |
| `Dashboard.SaveTrace` | src/pages/dashboard.tsx:31-42 | a successful insert is followed by exactly one listing for the same user |
| `Dashboard.SavedRow` | src/pages/dashboard.tsx:31-36 | the one new row carries the user's id, the untrimmed question, and the generated answer and descriptor; earlier rows are unchanged |
| `Dashboard.RefreshFailure` | src/pages/dashboard.tsx:38-43 | when only the refresh fails, answer and descriptor hold the new values and the history keeps its previous value |
| `Dashboard.FullSuccess` | src/pages/dashboard.tsx:38-47 | on full success the page shows the generated answer and descriptor, and `loading` is false |
| `Dashboard.HistoryAfterSuccess` | src/pages/dashboard.tsx:42-43 | on full success the history is the owner's stored rows and nothing else, newest first, including the row just saved |
| `Dashboard.HandleLogout` | src/pages/dashboard.tsx:51-57 | one sign-out call, and any error it raises is swallowed |
| `Preferences.Initial` | src/hooks/useSettings.ts:9-19 | with nothing saved the settings are dark mode off, notifications on, privacy private. A saved record replaces the defaults whole |
| `Preferences.Update` | src/hooks/useSettings.ts:32-34 | each field comes from the patch when present and from the previous settings otherwise |
| `Preferences.UpdateIdempotent` | src/hooks/useSettings.ts:33 | applying the same patch twice equals applying it once |
| `Preferences.UpdateEmpty` | src/hooks/useSettings.ts:33 | the empty patch changes nothing |
| `Preferences.ToggleDarkMode` | src/pages/dashboard.tsx:220 | the toggle flips dark mode and keeps the other two fields |
| `Preferences.ToggleTwice` | src/pages/dashboard.tsx:220 | toggling dark mode twice restores the original settings |
| `Preferences.Effect` | src/hooks/useSettings.ts:21-30 | the effect saves the current settings. The `dark` class is present exactly in dark mode, and no other class is touched |
| `Preferences.ReloadRestores` | src/hooks/useSettings.ts:16-22 | a reload after the effect starts from the settings it saved |
| `Preferences.Mount` | src/hooks/useSettings.ts:16-30 | after mounting, the saved value and the `dark` class agree with the initial settings |
| `Preferences.ApplyUpdates` | src/hooks/useSettings.ts:21-34 | each update is followed by the effect. After at least one update the saved value and `dark` class agree with the settings, a final patch that sets dark mode decides it, and no class other than `dark` is ever touched |
| `Preferences.StaysInSync` | src/hooks/useSettings.ts:21-34 | over any sequence of updates, the saved value equals the settings, the `dark` class tracks dark mode, and a reload restores the current settings |
| `Api.RandomIndex` | src/services/api.ts:7 | `Math.floor(draw * length)` is a valid index, namely the floor of `draw * length` |
| `Api.GetRandomElement` | src/services/api.ts:6-8 | the result is an element of the non-empty input, the one at the drawn index |
| `Api.EveryIndexReachable` | src/services/api.ts:6-8 | every index of the input is selected by some draw |
| `Api.AnswerFor` | src/services/api.ts:25 | the answer is the fixed lead, then the question verbatim, then the fixed tail |
| `Api.AnswerRoundTrip` | src/services/api.ts:25 | the question can be read back from its answer |
| `Api.GenerateVisualization` | src/services/api.ts:11-35 | never fails. Geometry is one of the four shapes, colour one of the five colours, type `3d-model`, position at the origin and unit scale. The answer quotes the question, which can be read back |
| `Api.EveryChoiceReachable` | src/services/api.ts:3-17 | each of the four shapes and each of the five colours is produced by some pair of draws |
| `Viewer.GetGeometry` | src/components/visualization/model-viewer.tsx:20-31 | "sphere", "cylinder" and "torus" each map to their own geometry with the code's arguments, each in both directions. Every other string gives the unit box |
| `Viewer.GeneratorShapesRoundTrip` | src/components/visualization/model-viewer.tsx:20-31 | each generator shape is rendered as a geometry that names it back, and "cube" is the only one served by the fallback |
| `Viewer.MaterialColor` | src/components/visualization/model-viewer.tsx:41 | the given colour when it is present and non-empty, otherwise `#2563EB`; never empty |
| `Viewer.Render` | src/components/visualization/model-viewer.tsx:33-43 | the mesh takes the descriptor's position and scale |
| `Viewer.RenderGenerated` | src/components/visualization/model-viewer.tsx:20-41 | a generated descriptor is drawn at the origin with unit scale, in the colour the generator chose, as the geometry named by its shape |

## Left out

- OAuth redirect options and `window.location` (src/hooks/useAuth.ts:39-41): the redirect target is the provider's concern. `Auth.SignInWithProvider` receives the provider's reply as a parameter.
- `console.error` logging in every `catch`: it has no effect the model can observe.
- Api.GetRandomElement: requires a non-empty array. On an empty one the code would index out of range and yield `undefined`, and both of its callers pass fixed non-empty lists.
- `Math.random()` as a floating-point generator: draws are exact reals in [0, 1). Rounding of `draw * length` in binary floating point is not modelled.
- The random rotation (src/services/api.ts:18-22) and its degree-to-radian conversion in the viewer (src/components/visualization/model-viewer.tsx:37): both are floating point. The rotation is a parameter of `Api.GenerateVisualization`, and `Viewer.Render` does not carry it.
- three.js rendering, the camera, lights and controls (src/components/visualization/model-viewer.tsx:46-57).
- Preferences.Update: an explicit `undefined` field in the patch, which `{...prev, ...newSettings}` would copy into the settings, cannot be expressed; a patch field is either a value or absent. No call site passes `undefined` (src/pages/dashboard.tsx:220, 241, 263, 274).
- `localStorage` and `JSON.stringify`/`JSON.parse`: saved settings are an `Option<Settings>`. So a saved empty string (which the code treats as nothing saved), a malformed value (`JSON.parse` throws), or a partial saved record are not represented.
- `Tables.PatchedOverrides`: a patch field explicitly set to `undefined` is not represented. This makes no difference here, because `JSON.stringify` drops `undefined` keys before `.update(updates)` sends the patch.
- Database triggers that could rewrite `updated_at` on update, the foreign key from `user_id` to the profiles, and row-level security: not part of this model.
- `Tables.SortByNewest`: the database's order among rows with equal `created_at` is unspecified. The model returns one admissible order, and only the order and the contents are stated, so nothing depends on which tie order is chosen.
- Concurrency: overlapping `handleSubmit` runs, and a push racing a running sign-in, are out of scope. The session events are applied in one sequential order, which is the order the hook observes them.
- React's lifecycle: state is a record, re-renders are not modelled, and the listener's registration is the `subscribed` flag of `Auth.AuthState`.
- The dashboard's JSX, tabs and styling (src/pages/dashboard.tsx:59-298), and the other pages and components: presentation only.
- The identity provider's internals, its session storage and password rules: every provider call is an oracle reply.

=== FILE: api.dfy ===
/**
 The placeholder answer generator: it picks a shape and a colour at random
 from two fixed lists and wraps the question in a fixed answer text. The
 values of `Math.random()` are parameters (`draw`s in [0, 1)); the random
 rotation is a parameter too.
 */
module Api {
  import opened Base

  const Shapes: seq<string> := ["cube", "sphere", "cylinder", "torus"]
  const Colors: seq<string> := ["#2563EB", "#DC2626", "#059669", "#D97706", "#7C3AED"]

  const AnswerLead := "Here's an explanation about "
  const AnswerTail := "\n\nThis is a sample response demonstrating how the AI would analyze your question and provide a detailed answer. In a production environment, this would be generated by a sophisticated AI model that understands the context and generates relevant explanations."

  /** What `generateVisualization` resolves to. */
  datatype Generated = Generated(answer: string, visualizationData: Descriptor)

  /** `Math.floor(draw * length)` for a draw of `Math.random()`: always a valid index. */
  function RandomIndex(length: nat, draw: real): (i: nat)
    requires length > 0 && 0.0 <= draw < 1.0
    ensures i < length
    ensures i as real <= draw * length as real < i as real + 1.0
  {
    assert draw * length as real < length as real by {
      assert (1.0 - draw) * length as real > 0.0;
    }
    (draw * length as real).Floor
  }

  /** `getRandomElement(items)`: the element at the drawn index. */
  function GetRandomElement<T>(items: seq<T>, draw: real): (x: T)
    requires |items| > 0 && 0.0 <= draw < 1.0
    ensures x in items
    ensures x == items[RandomIndex(|items|, draw)]
  {
    items[RandomIndex(|items|, draw)]
  }

  /** Every element can be drawn: the draw `i / length` selects index `i`. */
  lemma EveryIndexReachable(length: nat, i: nat)
    requires i < length
    ensures RandomIndex(length, i as real / length as real) == i
  {
    var d := i as real / length as real;
    assert d * length as real == i as real;
  }

  /** The answer text: the lead, the question verbatim, the fixed tail. */
  function AnswerFor(question: string): (a: string)
    ensures |a| == |AnswerLead| + |question| + |AnswerTail|
    ensures a[..|AnswerLead|] == AnswerLead
    ensures a[|AnswerLead|..|AnswerLead| + |question|] == question
    ensures a[|AnswerLead| + |question|..] == AnswerTail
  {
    AnswerLead + question + AnswerTail
  }

  /** The question an answer text was written for (the inverse of `AnswerFor`). */
  function QuestionOf(answer: string): string
    requires |answer| >= |AnswerLead| + |AnswerTail|
  {
    answer[|AnswerLead|..|answer| - |AnswerTail|]
  }

  /** The answer quotes the question verbatim and the question can be read back from it. */
  lemma AnswerRoundTrip(question: string)
    ensures |AnswerFor(question)| >= |AnswerLead| + |AnswerTail|
    ensures QuestionOf(AnswerFor(question)) == question
  {
    var a := AnswerFor(question);
    assert |a| - |AnswerTail| == |AnswerLead| + |question|;
  }

  /**
   `generateVisualization(question)`: never fails. The descriptor is a
   `3d-model` of one of the four shapes, in one of the five colours, at the
   origin with unit scale.
   */
  function GenerateVisualization(question: string, shapeDraw: real, colorDraw: real, rotation: Vec3): (g: Generated)
    requires 0.0 <= shapeDraw < 1.0 && 0.0 <= colorDraw < 1.0
    ensures g.visualizationData.geometry in Shapes
    ensures g.visualizationData.color.Some? && g.visualizationData.color.value in Colors
    ensures g.visualizationData.kind == "3d-model"
    ensures g.visualizationData.position == Vec3(0.0, 0.0, 0.0)
    ensures g.visualizationData.scale == Vec3(1.0, 1.0, 1.0)
    ensures g.visualizationData.rotation == rotation
    ensures AnswerLead <= g.answer
    ensures |g.answer| >= |AnswerLead| + |AnswerTail| && QuestionOf(g.answer) == question
  {
    AnswerRoundTrip(question);
    var shape := GetRandomElement(Shapes, shapeDraw);
    var color := GetRandomElement(Colors, colorDraw);
    Generated(
      AnswerFor(question),
      Descriptor("3d-model", shape, Vec3(0.0, 0.0, 0.0), rotation, Vec3(1.0, 1.0, 1.0), Some(color)))
  }

  /** Each shape and each colour is produced by some pair of draws. */
  lemma EveryChoiceReachable(question: string, s: nat, c: nat, rotation: Vec3)
    requires s < |Shapes| && c < |Colors|
    ensures var g := GenerateVisualization(question, s as real / |Shapes| as real, c as real / |Colors| as real, rotation);
            g.visualizationData.geometry == Shapes[s] && g.visualizationData.color == Some(Colors[c])
  {
    EveryIndexReachable(|Shapes|, s);
    EveryIndexReachable(|Colors|, c);
  }
}

=== FILE: auth.dfy ===
/**
 The authentication hook: the `user`/`loading` state kept in step with the
 identity provider, and the four account operations (password sign-in,
 sign-up with profile provisioning, federated sign-in and sign-out) with the
 way each rewrites the provider's errors.

 Every provider call is an oracle `AuthReply`: the promise either resolves
 to `{ data, error }` or throws. The session state is driven by an explicit,
 ordered sequence of events: the completion of the initial `getSession`,
 each push of the auth-change listener, and the teardown of the hook.
 Updates are applied in the order they arrive and the last one wins; there
 is no guard against a stale update.
 */
module Auth {
  import opened Base
  import opened Text
  import Tables

  /** A provider call: it resolves to `{ data, error }`, or it throws. */
  datatype AuthReply<T> = Replied(data: T, error: Option<Exn>) | Threw(thrown: Exn)

  /** What an operation returns or throws, with the calls it made. */
  datatype Outcome<T> = Outcome(result: Result<T>, calls: seq<Call>)

  /** The redirect data `signInWithOAuth` resolves to. */
  datatype OAuthData = OAuthData(provider: string, url: string)

  const InvalidLoginCredentials := "Invalid login credentials"
  const InvalidEmailOrPassword := "Invalid email or password"
  const AlreadyRegistered := "already registered"
  const AccountAlreadyExists := "An account with this email already exists"
  const ProfileCreationFailed := "Failed to create user profile"
  const ProviderSignInFailed := "Failed to sign in with provider"

  predicate Failed<T>(reply: AuthReply<T>)
  {
    reply.Threw? || reply.error.Some?
  }

  /** The exception a failed reply carries, whether it was thrown or returned as `error`. */
  function FailureOf<T>(reply: AuthReply<T>): Exn
    requires Failed(reply)
  {
    if reply.Threw? then reply.thrown else reply.error.value
  }

  // ---------------------------------------------------------------- sign-in

  /** The outer `catch` of `signIn`: every provider error becomes the generic message. */
  function SignInCatch(e: Exn): Exn
  {
    if e.AuthError? then PlainError(InvalidEmailOrPassword) else e
  }

  /**
   `signIn(email, password)`. A returned error whose message is exactly the
   provider's invalid-credentials text is replaced by the generic message;
   any other error is rethrown and reaches the outer `catch`, which turns
   every `AuthError` into that same generic message. So a caller sees either
   the generic message or an exception that is not an `AuthError`, exactly
   as the provider produced it. Success returns `data.user`.
   */
  function SignIn(email: string, password: string, reply: AuthReply<Option<User>>): (r: Outcome<Option<User>>)
    ensures r.calls == [AuthSignInWithPassword(email)]
    ensures r.result.Ok? <==> !Failed(reply)
    ensures r.result.Ok? ==> r.result.value == reply.data
    ensures Failed(reply) && FailureOf(reply).AuthError? ==> r.result == Err(PlainError(InvalidEmailOrPassword))
    ensures reply.Replied? && reply.error.Some? && reply.error.value.message == InvalidLoginCredentials ==>
      r.result == Err(PlainError(InvalidEmailOrPassword))
    // any other failure that is not an `AuthError` passes both catch sites unchanged
    ensures Failed(reply) && !FailureOf(reply).AuthError?
            && !(reply.Replied? && FailureOf(reply).message == InvalidLoginCredentials) ==>
      r.result == Err(FailureOf(reply))
    ensures r.result.Err? ==>
      || r.result.error == PlainError(InvalidEmailOrPassword)
      || (!r.result.error.AuthError? && r.result.error == FailureOf(reply))
  {
    var calls := [AuthSignInWithPassword(email)];
    match reply
    case Threw(e) => Outcome(Err(SignInCatch(e)), calls)
    case Replied(data, error) =>
      if error.None? then Outcome(Ok(data), calls)
      else if error.value.message == InvalidLoginCredentials then Outcome(Err(PlainError(InvalidEmailOrPassword)), calls)
      else Outcome(Err(SignInCatch(error.value)), calls)
  }

  // ---------------------------------------------------------------- sign-up

  /** What `signUp` returns or throws, the profiles table afterwards, and the calls it made. */
  datatype SignUpOutcome = SignUpOutcome(result: Result<Option<User>>, profiles: Tables.ProfileTable, calls: seq<Call>)

  /** The outer `catch` of `signUp`: only a duplicate registration is rewritten. */
  function SignUpCatch(e: Exn): Exn
  {
    if e.AuthError? && Includes(e.message, AlreadyRegistered) then PlainError(AccountAlreadyExists) else e
  }

  /**
   The body of `signUp`'s `try`: create the identity, then provision its
   profile; if provisioning fails, sign out (its reply is ignored unless it
   throws) and throw the provisioning error.
   */
  function SignUpSteps(
    email: string, username: string, reply: AuthReply<Option<User>>,
    profiles: Tables.ProfileTable, lookupFault: Option<Exn>, insert: Result<Tables.Stamps>,
    signOut: AuthReply<()>): (r: SignUpOutcome)
    ensures |r.calls| >= 1 && r.calls[0] == AuthSignUp(email, username)
    // a provider failure is thrown as it came, before any profile work
    ensures Failed(reply) ==> r == SignUpOutcome(Err(FailureOf(reply)), profiles, [AuthSignUp(email, username)])
    // a failure after the provider succeeded is the compensated provisioning failure
    ensures r.result.Err? && !Failed(reply) ==>
      && r.calls[|r.calls| - 1] == AuthSignOut
      && r.profiles == profiles
      && (if signOut.Threw? then r.result.error == signOut.thrown else r.result.error == PlainError(ProfileCreationFailed))
    ensures r.result.Ok? ==> r.result.value == reply.data && AuthSignOut !in r.calls
  {
    var calls := [AuthSignUp(email, username)];
    match reply
    case Threw(e) => SignUpOutcome(Err(e), profiles, calls)
    case Replied(data, error) =>
      if error.Some? then SignUpOutcome(Err(error.value), profiles, calls)
      else if data.None? then SignUpOutcome(Ok(None), profiles, calls)
      else
        var p := Tables.CreateProfile(profiles, data.value.id, username, lookupFault, insert);
        if p.result.Ok? then SignUpOutcome(Ok(data), p.table, calls + p.calls)
        else
          var compensated := calls + p.calls + [AuthSignOut];
          if signOut.Threw? then SignUpOutcome(Err(signOut.thrown), p.table, compensated)
          else SignUpOutcome(Err(PlainError(ProfileCreationFailed)), p.table, compensated)
  }

  /**
   `signUp(email, password, username)`: the provider creates the identity,
   then `createProfile(user.id, username)` runs exactly once; a failed
   provisioning is compensated by a sign-out before the error is reported.
   */
  function SignUp(
    email: string, password: string, username: string, reply: AuthReply<Option<User>>,
    profiles: Tables.ProfileTable, lookupFault: Option<Exn>, insert: Result<Tables.Stamps>,
    signOut: AuthReply<()>): (r: SignUpOutcome)
    ensures |r.calls| >= 1 && r.calls[0] == AuthSignUp(email, username)
    ensures forall k :: k in profiles ==> k in r.profiles && r.profiles[k] == profiles[k]
    // success with a user: that user is returned and its profile exists
    ensures r.result.Ok? && r.result.value.Some? ==>
      && reply == Replied(r.result.value, None)
      && r.result.value.value.id in r.profiles
      && AuthSignOut !in r.calls
  {
    var steps := SignUpSteps(email, username, reply, profiles, lookupFault, insert, signOut);
    match steps.result
    case Ok(_) => steps
    case Err(e) => steps.(result := Err(SignUpCatch(e)))
  }

  /**
   A provider error: no profile is looked up or inserted, and only an
   `AuthError` mentioning a duplicate registration is rewritten; everything
   else is rethrown as it came.
   */
  lemma SignUpProviderError(
    email: string, password: string, username: string, reply: AuthReply<Option<User>>,
    profiles: Tables.ProfileTable, lookupFault: Option<Exn>, insert: Result<Tables.Stamps>, signOut: AuthReply<()>)
    requires Failed(reply)
    ensures var r := SignUp(email, password, username, reply, profiles, lookupFault, insert, signOut);
            && r.calls == [AuthSignUp(email, username)]
            && r.profiles == profiles
            && (FailureOf(reply).AuthError? && Includes(FailureOf(reply).message, AlreadyRegistered) ==>
                  r.result == Err(PlainError(AccountAlreadyExists)))
            && (!(FailureOf(reply).AuthError? && Includes(FailureOf(reply).message, AlreadyRegistered)) ==>
                  r.result == Err(FailureOf(reply)))
  {
  }

  /** Neither an error nor a user: `null` is returned and no profile work is done. */
  lemma SignUpWithoutUser(
    email: string, password: string, username: string,
    profiles: Tables.ProfileTable, lookupFault: Option<Exn>, insert: Result<Tables.Stamps>, signOut: AuthReply<()>)
    ensures SignUp(email, password, username, Replied(None, None), profiles, lookupFault, insert, signOut)
         == SignUpOutcome(Ok(None), profiles, [AuthSignUp(email, username)])
  {
  }

  /**
   A user: `createProfile(user.id, username)` runs exactly once, its lookup
   directly after the provider call; when it succeeds the user is returned.
   */
  lemma SignUpProvisionsOnce(
    email: string, password: string, username: string, user: User,
    profiles: Tables.ProfileTable, lookupFault: Option<Exn>, insert: Result<Tables.Stamps>, signOut: AuthReply<()>)
    ensures var r := SignUp(email, password, username, Replied(Some(user), None), profiles, lookupFault, insert, signOut);
            var p := Tables.CreateProfile(profiles, user.id, username, lookupFault, insert);
            && Occurrences(r.calls, ProfilesSelect(user.id)) == 1
            && r.calls[1] == ProfilesSelect(user.id)
            && (p.result.Ok? ==> r.result == Ok(Some(user)) && r.profiles == p.table
                                 && r.calls == [AuthSignUp(email, username)] + p.calls)
  {
    var r := SignUp(email, password, username, Replied(Some(user), None), profiles, lookupFault, insert, signOut);
    var p := Tables.CreateProfile(profiles, user.id, username, lookupFault, insert);
    var tail := if p.result.Ok? then [] else [AuthSignOut];
    assert r.calls == [AuthSignUp(email, username)] + p.calls + tail;
    assert multiset(r.calls) == multiset([AuthSignUp(email, username)]) + multiset(p.calls) + multiset(tail);
  }

  /**
   Compensation: when provisioning fails the table is untouched, a sign-out
   is the last call, and (unless that sign-out throws) the caller gets the
   provisioning error, which is not an `AuthError` and so passes the outer
   `catch` unchanged.
   */
  lemma SignUpCompensates(
    email: string, password: string, username: string, user: User,
    profiles: Tables.ProfileTable, lookupFault: Option<Exn>, insert: Result<Tables.Stamps>, signOut: AuthReply<()>)
    requires Tables.CreateProfile(profiles, user.id, username, lookupFault, insert).result.Err?
    ensures var r := SignUp(email, password, username, Replied(Some(user), None), profiles, lookupFault, insert, signOut);
            && r.profiles == profiles
            && r.calls[|r.calls| - 1] == AuthSignOut
            && (signOut.Replied? ==> r.result == Err(PlainError(ProfileCreationFailed)))
            && (signOut.Threw? ==> r.result == Err(SignUpCatch(signOut.thrown)))
  {
  }

  /** The sign-up of a fresh identity inserts exactly its profile with the given username. */
  lemma SignUpProvisionsProfile(
    email: string, password: string, username: string, user: User,
    profiles: Tables.ProfileTable, lookupFault: Option<Exn>, stamps: Tables.Stamps, signOut: AuthReply<()>)
    requires user.id !in profiles
    ensures var r := SignUp(email, password, username, Replied(Some(user), None), profiles, lookupFault, Ok(stamps), signOut);
            && r.result == Ok(Some(user))
            && r.profiles == profiles[user.id := Profile(user.id, username, stamps.createdAt, stamps.updatedAt)]
            && r.calls == [AuthSignUp(email, username), ProfilesSelect(user.id), ProfilesInsert(user.id, username)]
  {
  }

  // -------------------------------------------------- federated sign-in, sign-out

  /** `signInWithProvider(provider)`: every `AuthError` becomes the generic provider message. */
  function SignInWithProvider(provider: string, reply: AuthReply<OAuthData>): (r: Outcome<OAuthData>)
    ensures r.calls == [AuthSignInWithOAuth(provider)]
    ensures r.result.Ok? <==> !Failed(reply)
    ensures r.result.Ok? ==> r.result.value == reply.data
    ensures Failed(reply) && FailureOf(reply).AuthError? ==> r.result == Err(PlainError(ProviderSignInFailed))
    ensures Failed(reply) && !FailureOf(reply).AuthError? ==> r.result == Err(FailureOf(reply))
  {
    var calls := [AuthSignInWithOAuth(provider)];
    if !Failed(reply) then Outcome(Ok(reply.data), calls)
    else
      var e := FailureOf(reply);
      Outcome(Err(if e.AuthError? then PlainError(ProviderSignInFailed) else e), calls)
  }

  /** `signOut()`: any error is rethrown unchanged. */
  function SignOut(reply: AuthReply<()>): (r: Outcome<()>)
    ensures r.calls == [AuthSignOut]
    ensures r.result.Ok? <==> !Failed(reply)
    ensures Failed(reply) ==> r.result == Err(FailureOf(reply))
  {
    if Failed(reply) then Outcome(Err(FailureOf(reply)), [AuthSignOut])
    else Outcome(Ok(()), [AuthSignOut])
  }

  // ---------------------------------------------------------- session state

  /** The hook's state; `subscribed` is true while the auth-change listener is registered. */
  datatype AuthState = AuthState(user: Option<User>, loading: bool, subscribed: bool)

  /** The events that reach the hook after it is mounted, in arrival order. */
  datatype AuthEvent =
    | SessionRestored(reply: AuthReply<Option<Session>>)  // the initial `getSession` resolves or throws
    | AuthStateChanged(session: Option<Session>)        // a push of the listener
    | Teardown                                          // the effect's cleanup runs

  /** The state and the calls made so far. */
  datatype Timeline = Timeline(state: AuthState, calls: seq<Call>)

  /** `session?.user ?? null`. */
  function UserOf(session: Option<Session>): Option<User>
  {
    if session.Some? then Some(session.value.user) else None
  }

  /** The events that write `user`. */
  predicate SetsUser(e: AuthEvent)
  {
    (e.SessionRestored? && e.reply.Replied?) || e.AuthStateChanged?
  }

  function UserSetBy(e: AuthEvent): Option<User>
    requires SetsUser(e)
  {
    if e.SessionRestored? then UserOf(e.reply.data) else UserOf(e.session)
  }

  /**
   Mounting: `user` is null and `loading` true until the first update;
   `getSession` is started and exactly one listener is registered.
   */
  function Mount(): (t: Timeline)
    ensures t.state.user.None? && t.state.loading && t.state.subscribed
    ensures Occurrences(t.calls, AuthSubscribe) == 1 && Occurrences(t.calls, AuthUnsubscribe) == 0
    ensures AuthGetSession in t.calls
  {
    Timeline(AuthState(None, true, true), [AuthGetSession, AuthSubscribe])
  }

  /**
   One event. A `getSession` that resolves, with or without an error, sets
   `user` from `data.session` and clears `loading`; one that throws only
   clears `loading`. A push sets `user` and clears `loading` too. After the
   teardown the listener is gone and the unmounted hook takes no update.
   */
  function Apply(s: AuthState, e: AuthEvent): (r: AuthState)
    ensures s.subscribed && SetsUser(e) ==> r.user == UserSetBy(e) && !r.loading
    ensures s.subscribed && e.SessionRestored? ==> !r.loading
    // a read that throws leaves `user`; a returned `error` is ignored, only `data.session` is read
    ensures e.SessionRestored? && e.reply.Threw? ==> r.user == s.user
    ensures s.subscribed && e.SessionRestored? && e.reply.Replied? ==> r.user == UserOf(e.reply.data)
    ensures r.user != s.user ==> s.subscribed && SetsUser(e)
    ensures r.loading != s.loading ==> !r.loading
    ensures r.subscribed <==> s.subscribed && !e.Teardown?
    // an unmounted hook takes no update, and the cleanup only removes the listener
    ensures !s.subscribed ==> r == s
    ensures e.Teardown? ==> r == s.(subscribed := false)
  {
    if !s.subscribed then s
    else
      match e
      case SessionRestored(reply) =>
        if reply.Replied? then s.(user := UserOf(reply.data), loading := false) else s.(loading := false)
      case AuthStateChanged(session) => s.(user := UserOf(session), loading := false)
      case Teardown => s.(subscribed := false)
  }

  /** One event: the state moves by `Apply`, and only a teardown of a live listener makes a call. */
  /** The session read's returned `error` is never looked at: only `data.session` matters. */
  lemma SessionErrorIgnored(s: AuthState, session: Option<Session>, err: Exn)
    ensures Apply(s, SessionRestored(Replied(session, Some(err)))) == Apply(s, SessionRestored(Replied(session, None)))
  {
  }

  function Step(t: Timeline, e: AuthEvent): (r: Timeline)
    ensures r.state == Apply(t.state, e)
    ensures |t.calls| <= |r.calls| <= |t.calls| + 1 && r.calls[..|t.calls|] == t.calls
    ensures |r.calls| == |t.calls| + 1 <==> t.state.subscribed && e.Teardown?
    ensures |r.calls| == |t.calls| + 1 ==> r.calls[|t.calls|] == AuthUnsubscribe
  {
    Timeline(Apply(t.state, e), t.calls + if e.Teardown? && t.state.subscribed then [AuthUnsubscribe] else [])
  }

  /** The events applied one after another, in order. */
  function Run(t: Timeline, es: seq<AuthEvent>): (r: Timeline)
    // the trace only grows, by at most one unsubscription, and a removed listener stays removed
    ensures |t.calls| <= |r.calls| <= |t.calls| + 1 && r.calls[..|t.calls|] == t.calls
    ensures |r.calls| == |t.calls| + 1 ==> r.calls[|t.calls|] == AuthUnsubscribe && !r.state.subscribed
    ensures r.state.subscribed ==> t.state.subscribed
    decreases |es|
  {
    if es == [] then t else Step(Run(t, es[..|es| - 1]), es[|es| - 1])
  }

  /**
   With no teardown, the last event that writes `user` decides it, whatever
   arrived before (an earlier push, or the initial `getSession`); `loading`
   is then false.
   */
  lemma {:induction false} LastUpdateWins(t: Timeline, es: seq<AuthEvent>, k: int)
    requires t.state.subscribed
    requires 0 <= k < |es| && SetsUser(es[k])
    requires forall j :: 0 <= j < |es| ==> !es[j].Teardown?
    requires forall j :: k < j < |es| ==> !SetsUser(es[j])
    ensures Run(t, es).state.user == UserSetBy(es[k])
    ensures !Run(t, es).state.loading
    ensures Run(t, es).state.subscribed
  {
    var n := |es| - 1;
    assert es[..n][..n] == es[..n];
    if k == n {
      StillSubscribed(t, es[..n]);
    } else {
      assert es[..n][k] == es[k];
      LastUpdateWins(t, es[..n], k);
    }
  }

  /** Without a teardown the listener stays registered. */
  lemma {:induction false} StillSubscribed(t: Timeline, es: seq<AuthEvent>)
    requires t.state.subscribed
    requires forall j :: 0 <= j < |es| ==> !es[j].Teardown?
    ensures Run(t, es).state.subscribed
  {
    if es != [] {
      var n := |es| - 1;
      assert forall j :: 0 <= j < n ==> es[..n][j] == es[j];
      StillSubscribed(t, es[..n]);
    }
  }

  /**
   The listener count: from mounting on, subscriptions minus unsubscriptions
   is one while the listener is registered and zero after the teardown, so
   the single listener is removed exactly once.
   */
  lemma {:induction false} ListenerBalance(es: seq<AuthEvent>)
    ensures var t := Run(Mount(), es);
            && Occurrences(t.calls, AuthSubscribe) == 1
            && Occurrences(t.calls, AuthUnsubscribe) == if t.state.subscribed then 0 else 1
  {
    if es != [] {
      var n := |es| - 1;
      ListenerBalance(es[..n]);
    }
  }

  /** Once torn down, no event changes the state or makes a call. */
  lemma {:induction false} TornDownIsInert(t: Timeline, es: seq<AuthEvent>)
    requires !t.state.subscribed
    ensures Run(t, es) == t
  {
    if es != [] {
      TornDownIsInert(t, es[..|es| - 1]);
    }
  }

  /**
   No staleness guard: a `getSession` that settles after a later push
   overwrites the pushed user with the one it read.
   */
  lemma StaleRestoreOverwritesPush(s1: Session, s2: Session)
    ensures Run(Mount(), [AuthStateChanged(Some(s2)), SessionRestored(Replied(Some(s1), None))]).state.user == Some(s1.user)
  {
    var es := [AuthStateChanged(Some(s2)), SessionRestored(Replied(Some(s1), None))];
    assert es[..1] == [AuthStateChanged(Some(s2))];
    assert es[..1][..0] == [];
    assert Run(Mount(), es[..1]).state.subscribed;
  }
}

=== FILE: base.dfy ===
/**
 Shared vocabulary of the model: the optional and failure-carrying wrappers,
 the exceptions the app throws or receives, the rows of the two database
 tables (profiles and visualizations), the visualization descriptor that the
 answer generator produces and the viewer consumes, and the calls the app
 makes to its remote collaborators (the identity provider, the database and
 the answer generator), recorded as a trace.
 */
module Base {

  /** A value that may be absent (`null` / `undefined` in the app). */
  datatype Option<+T> = None | Some(value: T)

  /** The outcome of an awaited step: a value, or the exception it throws. */
  datatype Result<+T> = Ok(value: T) | Err(error: Exn)

  /**
   The exceptions that can reach the app's catch blocks.
   - `AuthError`: the identity provider's error class (the app tests `instanceof AuthError`);
   - `PlainError`: `new Error(message)` or any other non-provider exception;
   - `PostgrestError`: a database error, with its code.
   */
  datatype Exn =
    | AuthError(message: string)
    | PlainError(message: string)
    | PostgrestError(code: string, message: string)

  /** The error PostgREST reports when `.single()` finds zero or several rows. */
  const NotSingleRow: Exn := PostgrestError("PGRST116", "JSON object requested, multiple (or no) rows returned")

  /** The error Postgres reports when an insert or update repeats a primary key. */
  const UniqueViolation: Exn := PostgrestError("23505", "duplicate key value violates unique constraint")

  /** Instants as the database orders them (its `timestamptz` columns). */
  type Timestamp = int

  /** An identity of the provider: the `id` and `email` the app reads. */
  datatype User = User(id: string, email: string)

  /** A live session; the app only ever reads its `user`. */
  datatype Session = Session(user: User, accessToken: string)

  /** A row of the `profiles` table. */
  datatype Profile = Profile(id: string, username: string, createdAt: Timestamp, updatedAt: Timestamp)

  /** `Partial<Profile>`: a present field overrides, an absent one keeps the row's value. */
  datatype ProfilePatch = ProfilePatch(
    id: Option<string>,
    username: Option<string>,
    createdAt: Option<Timestamp>,
    updatedAt: Option<Timestamp>)

  /** Three numbers, as the `[x, y, z]` tuples of the descriptor. */
  datatype Vec3 = Vec3(x: real, y: real, z: real)

  /**
   The visualization descriptor stored in `visualization_data` and rendered by
   the viewer; `color` is optional in the viewer's props.
   */
  datatype Descriptor = Descriptor(
    kind: string,
    geometry: string,
    position: Vec3,
    rotation: Vec3,
    scale: Vec3,
    color: Option<string>)

  /** A row of the `visualizations` table. */
  datatype Visualization = Visualization(
    id: string,
    userId: string,
    question: string,
    answer: string,
    data: Descriptor,
    createdAt: Timestamp,
    updatedAt: Timestamp)

  /** One call to a remote collaborator, as recorded in a trace. */
  datatype Call =
    | AuthGetSession
    | AuthSubscribe
    | AuthUnsubscribe
    | AuthSignInWithPassword(email: string)
    | AuthSignUp(email: string, username: string)
    | AuthSignOut
    | AuthSignInWithOAuth(provider: string)
    | ProfilesSelect(id: string)
    | ProfilesInsert(id: string, username: string)
    | ProfilesUpdate(id: string, patch: ProfilePatch)
    | VisualizationsInsert(userId: string, question: string, answer: string, data: Descriptor)
    | VisualizationsSelectByUser(userId: string)
    | VisualizationsSelectById(id: string)
    | Generate(question: string)

  /** Number of occurrences of `c` in the trace `calls`. */
  function Occurrences(calls: seq<Call>, c: Call): nat
  {
    multiset(calls)[c]
  }
}

=== FILE: dashboard.dfy ===
/**
 The dashboard's two handlers: `handleSubmit`, which asks the generator,
 saves the result and refreshes the history, and `handleLogout`. The page
 state is a record; the generator's reply, the insert's reply and the
 listing's failure are oracle arguments. Each run returns the new page, the
 visualizations table afterwards, the calls made in order, and the values
 written to `loading` in order.
 */
module Dashboard {
  import opened Base
  import opened Text
  import Tables
  import Api
  import Auth

  /** The state `handleSubmit` reads and writes. */
  datatype Page = Page(
    question: string,
    loading: bool,
    answer: string,
    visualizationData: Option<Descriptor>,
    history: seq<Visualization>)

  datatype Submitted = Submitted(
    page: Page,
    rows: Tables.VisualizationTable,
    calls: seq<Call>,
    loadingWrites: seq<bool>)

  /** `!question.trim() || !user`: the guard that returns before anything happens. */
  predicate Rejects(question: string, user: Option<User>)
  {
    Trim(question) == [] || user.None?
  }

  /** Where the `try` block ends, normally or by an exception: the page, the table and the calls. */
  datatype Attempt = Attempt(page: Page, rows: Tables.VisualizationTable, calls: seq<Call>)

  /** The refresh: on success the fetched list becomes the history, on failure nothing changes. */
  function Refresh(shown: Page, uid: string, rows: Tables.VisualizationTable, listFault: Option<Exn>): (t: Attempt)
    ensures t.rows == rows && t.calls == [VisualizationsSelectByUser(uid)]
    ensures listFault.Some? ==> t.page == shown
    ensures listFault.None? ==> t.page == shown.(history := t.page.history)
    // the new history: the owner's rows and nothing else, newest first
    ensures listFault.None? ==> Tables.NewestFirst(t.page.history)
    ensures listFault.None? ==> forall v :: v in t.page.history <==> v in rows && v.userId == uid
  {
    Tables.HistoryMembership(rows, uid);
    var listed := Tables.GetVisualizations(rows, uid, listFault);
    if listed.result.Err? then Attempt(shown, rows, listed.calls)
    else Attempt(shown.(history := listed.result.value), rows, listed.calls)
  }

  /** The save, and after it the display of the answer and the refresh. */
  function Save(
    busy: Page, uid: string, rows: Tables.VisualizationTable, g: Api.Generated,
    insert: Result<Tables.Assigned>, listFault: Option<Exn>): (t: Attempt)
    ensures |t.calls| >= 1 && t.calls[0] == VisualizationsInsert(uid, busy.question, g.answer, g.visualizationData)
  {
    var saved := Tables.CreateVisualization(rows, uid, busy.question, g.answer, g.visualizationData, insert);
    if saved.result.Err? then Attempt(busy, saved.table, saved.calls)
    else
      var shown := busy.(answer := g.answer, visualizationData := Some(g.visualizationData));
      var refreshed := Refresh(shown, uid, saved.table, listFault);
      Attempt(refreshed.page, refreshed.rows, saved.calls + refreshed.calls)
  }

  /**
   `handleSubmit`: generate, then save `(user.id, question, answer, data)`,
   then show the answer and descriptor, then refresh the history. Any
   exception ends the run in the `catch`, which only logs it; `loading` is
   raised first and lowered in the `finally`.
   */
  function HandleSubmit(
    page: Page, user: Option<User>, rows: Tables.VisualizationTable,
    generated: Result<Api.Generated>, insert: Result<Tables.Assigned>, listFault: Option<Exn>): (r: Submitted)
    ensures Rejects(page.question, user) ==> r == Submitted(page, rows, [], [])
    ensures !Rejects(page.question, user) ==>
      && r.loadingWrites == [true, false] && !r.page.loading
      && |r.calls| >= 1 && r.calls[0] == Generate(page.question)
      && r.page.question == page.question
  {
    if Rejects(page.question, user) then Submitted(page, rows, [], [])
    else
      var busy := page.(loading := true);
      var t := match generated
               case Err(_) => Attempt(busy, rows, [])
               case Ok(g) => Save(busy, user.value.id, rows, g, insert, listFault);
      Submitted(t.page.(loading := false), t.rows, [Generate(page.question)] + t.calls, [true, false])
  }

  /** The guard fires exactly for a question of white space only, or when signed out. */
  lemma RejectsIffBlankOrSignedOut(question: string, user: Option<User>)
    ensures Rejects(question, user) <==> AllSpace(question) || user.None?
  {
    TrimEmptyIffAllSpace(question);
  }

  /** A failed generation: nothing is saved and only `loading` moved. */
  lemma GenerationFailure(
    page: Page, user: Option<User>, rows: Tables.VisualizationTable,
    e: Exn, insert: Result<Tables.Assigned>, listFault: Option<Exn>)
    requires !Rejects(page.question, user)
    ensures var r := HandleSubmit(page, user, rows, Err(e), insert, listFault);
            && r.calls == [Generate(page.question)]
            && r.rows == rows
            && r.page == page.(loading := false)
  {
  }

  /**
   A failed save: the calls are generate then insert, the table is as it
   was, and the answer, descriptor and history keep their old values.
   */
  lemma PersistenceFailure(
    page: Page, user: Option<User>, rows: Tables.VisualizationTable,
    g: Api.Generated, insert: Result<Tables.Assigned>, listFault: Option<Exn>)
    requires !Rejects(page.question, user)
    requires Tables.CreateVisualization(rows, user.value.id, page.question, g.answer, g.visualizationData, insert).result.Err?
    ensures var r := HandleSubmit(page, user, rows, Ok(g), insert, listFault);
            && r.calls == [Generate(page.question),
                           VisualizationsInsert(user.value.id, page.question, g.answer, g.visualizationData)]
            && r.rows == rows
            && r.page == page.(loading := false)
  {
  }

  /**
   Once the save succeeds, the calls are generate, insert, list, in that
   order, whether or not the listing fails.
   */
  lemma SavedRunTrace(
    page: Page, user: Option<User>, rows: Tables.VisualizationTable,
    g: Api.Generated, insert: Result<Tables.Assigned>, listFault: Option<Exn>)
    requires !Rejects(page.question, user)
    requires Tables.CreateVisualization(rows, user.value.id, page.question, g.answer, g.visualizationData, insert).result.Ok?
    ensures HandleSubmit(page, user, rows, Ok(g), insert, listFault).calls
         == [Generate(page.question),
             VisualizationsInsert(user.value.id, page.question, g.answer, g.visualizationData),
             VisualizationsSelectByUser(user.value.id)]
  {
    var busy := page.(loading := true);
    SaveTrace(busy, user.value.id, rows, g, insert, listFault);
    assert HandleSubmit(page, user, rows, Ok(g), insert, listFault).calls
        == [Generate(page.question)] + Save(busy, user.value.id, rows, g, insert, listFault).calls;
  }

  lemma SaveTrace(
    busy: Page, uid: string, rows: Tables.VisualizationTable, g: Api.Generated,
    insert: Result<Tables.Assigned>, listFault: Option<Exn>)
    requires Tables.CreateVisualization(rows, uid, busy.question, g.answer, g.visualizationData, insert).result.Ok?
    ensures Save(busy, uid, rows, g, insert, listFault).calls
         == [VisualizationsInsert(uid, busy.question, g.answer, g.visualizationData), VisualizationsSelectByUser(uid)]
  {
    var saved := Tables.CreateVisualization(rows, uid, busy.question, g.answer, g.visualizationData, insert);
    var shown := busy.(answer := g.answer, visualizationData := Some(g.visualizationData));
    var refreshed := Refresh(shown, uid, saved.table, listFault);
    assert Save(busy, uid, rows, g, insert, listFault).calls == saved.calls + refreshed.calls;
  }

  /** The saved row carries the owner, the question exactly as typed, and the generated answer and descriptor. */
  lemma SavedRow(
    page: Page, user: Option<User>, rows: Tables.VisualizationTable,
    g: Api.Generated, insert: Result<Tables.Assigned>, listFault: Option<Exn>)
    requires !Rejects(page.question, user)
    requires Tables.CreateVisualization(rows, user.value.id, page.question, g.answer, g.visualizationData, insert).result.Ok?
    ensures var r := HandleSubmit(page, user, rows, Ok(g), insert, listFault);
            && |r.rows| == |rows| + 1 && r.rows[..|rows|] == rows
            && r.rows[|rows|].userId == user.value.id
            && r.rows[|rows|].question == page.question
            && r.rows[|rows|].answer == g.answer
            && r.rows[|rows|].data == g.visualizationData
  {
    var saved := Tables.CreateVisualization(rows, user.value.id, page.question, g.answer, g.visualizationData, insert);
    assert HandleSubmit(page, user, rows, Ok(g), insert, listFault).rows == saved.table;
  }

  /**
   A failed refresh: the answer and descriptor are already shown, and the
   history keeps its previous value.
   */
  lemma RefreshFailure(
    page: Page, user: Option<User>, rows: Tables.VisualizationTable,
    g: Api.Generated, insert: Result<Tables.Assigned>, e: Exn)
    requires !Rejects(page.question, user)
    requires Tables.CreateVisualization(rows, user.value.id, page.question, g.answer, g.visualizationData, insert).result.Ok?
    ensures HandleSubmit(page, user, rows, Ok(g), insert, Some(e)).page
         == page.(loading := false, answer := g.answer, visualizationData := Some(g.visualizationData))
  {
  }

  /** Full success: the page shows the generated answer and descriptor. */
  lemma FullSuccess(
    page: Page, user: Option<User>, rows: Tables.VisualizationTable,
    g: Api.Generated, insert: Result<Tables.Assigned>)
    requires !Rejects(page.question, user)
    requires Tables.CreateVisualization(rows, user.value.id, page.question, g.answer, g.visualizationData, insert).result.Ok?
    ensures HandleSubmit(page, user, rows, Ok(g), insert, None).page.answer == g.answer
    ensures HandleSubmit(page, user, rows, Ok(g), insert, None).page.visualizationData == Some(g.visualizationData)
    ensures !HandleSubmit(page, user, rows, Ok(g), insert, None).page.loading
  {
    var uid := user.value.id;
    var saved := Tables.CreateVisualization(rows, uid, page.question, g.answer, g.visualizationData, insert);
    var shown := page.(loading := true, answer := g.answer, visualizationData := Some(g.visualizationData));
    var refreshed := Refresh(shown, uid, saved.table, None);
    assert refreshed.page.answer == g.answer && refreshed.page.visualizationData == Some(g.visualizationData);
  }

  /**
   After a full success the history is the owner's stored rows and nothing
   else, newest first, and it includes the row just saved.
   */
  lemma HistoryAfterSuccess(
    page: Page, user: Option<User>, rows: Tables.VisualizationTable,
    g: Api.Generated, insert: Result<Tables.Assigned>)
    requires !Rejects(page.question, user)
    requires Tables.CreateVisualization(rows, user.value.id, page.question, g.answer, g.visualizationData, insert).result.Ok?
    ensures var r := HandleSubmit(page, user, rows, Ok(g), insert, None);
            && Tables.NewestFirst(r.page.history)
            && (forall v :: v in r.page.history <==> v in r.rows && v.userId == user.value.id)
            && |r.rows| == |rows| + 1 && r.rows[|rows|] in r.page.history
  {
    var uid := user.value.id;
    var saved := Tables.CreateVisualization(rows, uid, page.question, g.answer, g.visualizationData, insert);
    var shown := page.(loading := true, answer := g.answer, visualizationData := Some(g.visualizationData));
    var refreshed := Refresh(shown, uid, saved.table, None);
    var r := HandleSubmit(page, user, rows, Ok(g), insert, None);
    assert r.page.history == refreshed.page.history && r.rows == saved.table;
    assert saved.table[|rows|] == saved.result.value;
  }

  /** `handleLogout`: one sign-out call, and its error, if any, is swallowed. */
  function HandleLogout(reply: Auth.AuthReply<()>): (r: Auth.Outcome<()>)
    ensures r.result == Ok(())
    ensures r.calls == [AuthSignOut]
  {
    var signOut := Auth.SignOut(reply);
    Auth.Outcome(Ok(()), signOut.calls)
  }
}

=== FILE: settings.dfy ===
/**
 The display-preferences hook: the defaults, the initial choice between the
 saved record and the defaults, the partial-record update, and the effect
 that persists the settings and mirrors `darkMode` into the document's
 `dark` class. Local storage is an `Option<Settings>` (the JSON encoding is
 not modelled) and the document's class list is a set of names.
 */
module Preferences {
  import opened Base

  datatype Privacy = Private | Public

  datatype Settings = Settings(darkMode: bool, notifications: bool, privacy: Privacy)

  /** `Partial<Settings>`: a present field overrides, an absent one keeps the previous value. */
  datatype SettingsPatch = SettingsPatch(darkMode: Option<bool>, notifications: Option<bool>, privacy: Option<Privacy>)

  const Defaults := Settings(false, true, Private)

  const DarkClass := "dark"

  /** The page's browser state: the saved settings and the document's classes. */
  datatype Browser = Browser(saved: Option<Settings>, classes: set<string>)

  /** The lazy initial state: a saved record replaces the defaults as a whole. */
  function Initial(saved: Option<Settings>): (s: Settings)
    ensures saved.None? ==> s == Defaults && !s.darkMode && s.notifications && s.privacy == Private
    ensures saved.Some? ==> s == saved.value
  {
    if saved.Some? then saved.value else Defaults
  }

  /** `updateSettings(patch)`: `{ ...prev, ...patch }`. */
  function Update(prev: Settings, patch: SettingsPatch): (s: Settings)
    ensures s.darkMode == if patch.darkMode.Some? then patch.darkMode.value else prev.darkMode
    ensures s.notifications == if patch.notifications.Some? then patch.notifications.value else prev.notifications
    ensures s.privacy == if patch.privacy.Some? then patch.privacy.value else prev.privacy
  {
    Settings(
      if patch.darkMode.Some? then patch.darkMode.value else prev.darkMode,
      if patch.notifications.Some? then patch.notifications.value else prev.notifications,
      if patch.privacy.Some? then patch.privacy.value else prev.privacy)
  }

  /** Applying the same patch twice is applying it once. */
  lemma UpdateIdempotent(s: Settings, patch: SettingsPatch)
    ensures Update(Update(s, patch), patch) == Update(s, patch)
  {
  }

  /** The empty patch changes nothing. */
  lemma UpdateEmpty(s: Settings)
    ensures Update(s, SettingsPatch(None, None, None)) == s
  {
  }

  /** The dashboard's toggle, `updateSettings({ darkMode: !settings.darkMode })`. */
  function ToggleDarkMode(s: Settings): (t: Settings)
    ensures t.darkMode == !s.darkMode
    ensures t.notifications == s.notifications && t.privacy == s.privacy
  {
    Update(s, SettingsPatch(Some(!s.darkMode), None, None))
  }

  /** Toggling dark mode twice restores the original settings. */
  lemma ToggleTwice(s: Settings)
    ensures ToggleDarkMode(ToggleDarkMode(s)) == s
  {
  }

  /**
   The effect run after every change of `settings`: save them and add or
   remove the `dark` class; no other class is touched.
   */
  function Effect(s: Settings, b: Browser): (b': Browser)
    ensures b'.saved == Some(s)
    ensures DarkClass in b'.classes <==> s.darkMode
    ensures b'.classes - {DarkClass} == b.classes - {DarkClass}
  {
    Browser(Some(s), if s.darkMode then b.classes + {DarkClass} else b.classes - {DarkClass})
  }

  /** A reload after the effect starts from the settings it saved. */
  lemma ReloadRestores(s: Settings, b: Browser)
    ensures Initial(Effect(s, b).saved) == s
  {
  }

  /** The hook's settings together with the browser state they are mirrored into. */
  datatype View = View(settings: Settings, browser: Browser)

  /** After the effect has run: saved value and `dark` class agree with the settings. */
  predicate InSync(v: View)
  {
    v.browser.saved == Some(v.settings) && (DarkClass in v.browser.classes <==> v.settings.darkMode)
  }

  /** Mounting: choose the initial settings, then run the effect once. */
  function Mount(b: Browser): (v: View)
    ensures InSync(v)
    ensures v.settings == Initial(b.saved)
  {
    var s := Initial(b.saved);
    View(s, Effect(s, b))
  }

  /** Each update is followed by the effect. */
  function ApplyUpdates(v: View, patches: seq<SettingsPatch>): (r: View)
    // once any update has run, the effect has mirrored the latest settings
    ensures patches != [] ==> InSync(r)
    ensures patches != [] && patches[|patches| - 1].darkMode.Some? ==>
      r.settings.darkMode == patches[|patches| - 1].darkMode.value
    ensures r.browser.classes - {DarkClass} == v.browser.classes - {DarkClass}
    decreases |patches|
  {
    if patches == [] then v
    else
      var s := Update(v.settings, patches[0]);
      ApplyUpdates(View(s, Effect(s, v.browser)), patches[1..])
  }

  /**
   Over any sequence of updates after mounting, the saved value equals the
   settings, the `dark` class is present exactly in dark mode, and a reload
   would restore the current settings.
   */
  lemma StaysInSync(v: View, patches: seq<SettingsPatch>)
    requires InSync(v)
    ensures InSync(ApplyUpdates(v, patches))
    ensures Initial(ApplyUpdates(v, patches).browser.saved) == ApplyUpdates(v, patches).settings
  {
  }
}

=== FILE: tables.dfy ===
/**
 The data-access hook: the six queries the app issues against its two
 database tables. The tables are the ground truth of the model: `profiles`
 is a map from primary key to row (the key is the identity's id), and
 `visualizations` is the sequence of rows in insertion order. A query that
 succeeds answers from the table; the remote side only contributes the
 transient failures it may report and the values it assigns on insert
 (generated id and timestamps), which are passed in as oracle arguments.
 */
module Tables {
  import opened Base

  type ProfileTable = map<string, Profile>
  type VisualizationTable = seq<Visualization>

  /** What an awaited query returns or throws, the table afterwards, and the calls it made. */
  datatype Reply<S, T> = Reply(result: Result<T>, table: S, calls: seq<Call>)

  /** Column values the database assigns to a new profile row. */
  datatype Stamps = Stamps(createdAt: Timestamp, updatedAt: Timestamp)

  /** Column values the database assigns to a new visualization row. */
  datatype Assigned = Assigned(id: string, createdAt: Timestamp, updatedAt: Timestamp)

  /** The two columns the app filters visualizations on with `.eq`. */
  datatype Column = IdColumn | UserIdColumn

  function ColumnValue(v: Visualization, c: Column): string
  {
    match c
    case IdColumn => v.id
    case UserIdColumn => v.userId
  }

  // ---------------------------------------------------------------- profiles

  /** The primary-key invariant of the profiles table: each row sits under its own id. */
  predicate KeyedById(profiles: ProfileTable)
  {
    forall k :: k in profiles ==> profiles[k].id == k
  }

  /**
   `createProfile`: look the id up first and return the row found; otherwise
   insert `{id, username}`. A failed lookup is not reported (its error is
   dropped), so it falls through to the insert exactly as "not found" does;
   the insert then fails with a unique violation if the row was there after
   all. An insert failure is rethrown and leaves the table as it was.
   */
  function CreateProfile(
    profiles: ProfileTable, userId: string, username: string,
    lookupFault: Option<Exn>, insert: Result<Stamps>): (r: Reply<ProfileTable, Profile>)
    ensures |r.calls| >= 1 && r.calls[0] == ProfilesSelect(userId)
    // an existing row is returned and nothing is inserted
    ensures lookupFault.None? && userId in profiles ==>
      r.result == Ok(profiles[userId]) && r.table == profiles && r.calls == [ProfilesSelect(userId)]
    // otherwise exactly one insert of `{id: userId, username}` is attempted
    ensures !(lookupFault.None? && userId in profiles) ==>
      r.calls == [ProfilesSelect(userId), ProfilesInsert(userId, username)]
    // a returned profile is the table's row for that id
    ensures r.result.Ok? ==> userId in r.table && r.table[userId] == r.result.value
    ensures KeyedById(profiles) ==> KeyedById(r.table)
    ensures KeyedById(profiles) && r.result.Ok? ==> r.result.value.id == userId
    ensures r.result.Ok? && userId !in profiles ==> r.result.value.username == username
    // the table only ever gains the row for `userId`
    ensures r.table.Keys == profiles.Keys + (if r.result.Ok? then {userId} else {})
    ensures forall k :: k in profiles ==> k in r.table && r.table[k] == profiles[k]
    // failures leave the table unchanged and report the insert's error
    ensures r.result.Err? ==> r.table == profiles
    ensures r.result.Err? && userId !in profiles ==> insert.Err? && r.result.error == insert.error
    ensures r.result.Err? && userId in profiles ==> r.result.error == UniqueViolation || (insert.Err? && r.result.error == insert.error)
    // on the insert path an insert error always surfaces, with the table unchanged
    ensures !(lookupFault.None? && userId in profiles) && insert.Err? ==> r.result == Err(insert.error) && r.table == profiles
    // a failed lookup over an existing row ends in the primary-key violation
    ensures lookupFault.Some? && userId in profiles && insert.Ok? ==> r.result == Err(UniqueViolation)
  {
    var lookup := [ProfilesSelect(userId)];
    if lookupFault.None? && userId in profiles then
      Reply(Ok(profiles[userId]), profiles, lookup)
    else
      var calls := lookup + [ProfilesInsert(userId, username)];
      match insert
      case Err(e) => Reply(Err(e), profiles, calls)
      case Ok(stamps) =>
        if userId in profiles then Reply(Err(UniqueViolation), profiles, calls)
        else
          var row := Profile(userId, username, stamps.createdAt, stamps.updatedAt);
          Reply(Ok(row), profiles[userId := row], calls)
  }

  /**
   Calling `createProfile` a second time for the same id (with a lookup that
   goes through) returns the row the first call produced and inserts nothing.
   */
  lemma CreateProfileIdempotent(
    profiles: ProfileTable, userId: string, username: string, username': string,
    fault: Option<Exn>, insert: Result<Stamps>, insert': Result<Stamps>)
    requires CreateProfile(profiles, userId, username, fault, insert).result.Ok?
    ensures var first := CreateProfile(profiles, userId, username, fault, insert);
            var second := CreateProfile(first.table, userId, username', None, insert');
            && second.result == first.result
            && second.table == first.table
            && ProfilesInsert(userId, username') !in second.calls
  {
  }

  /** A lookup that fails behaves like a lookup that finds nothing. */
  lemma FailedLookupIsNotFound(
    profiles: ProfileTable, userId: string, username: string, e: Exn, insert: Result<Stamps>)
    requires userId !in profiles
    ensures CreateProfile(profiles, userId, username, Some(e), insert)
         == CreateProfile(profiles, userId, username, None, insert)
  {
  }

  /** `getProfile`: the row with that id; `.single()` fails when there is none. */
  function GetProfile(profiles: ProfileTable, userId: string, fault: Option<Exn>): (r: Reply<ProfileTable, Profile>)
    ensures r.table == profiles && r.calls == [ProfilesSelect(userId)]
    ensures r.result.Ok? <==> fault.None? && userId in profiles
    ensures r.result.Ok? ==> r.result.value == profiles[userId]
    ensures fault.None? && userId !in profiles ==> r.result == Err(NotSingleRow)
    ensures fault.Some? ==> r.result == Err(fault.value)
  {
    var calls := [ProfilesSelect(userId)];
    if fault.Some? then Reply(Err(fault.value), profiles, calls)
    else if userId in profiles then Reply(Ok(profiles[userId]), profiles, calls)
    else Reply(Err(NotSingleRow), profiles, calls)
  }

  /** A profile that `createProfile` returned is what `getProfile` reads back. */
  lemma CreateThenGet(
    profiles: ProfileTable, userId: string, username: string,
    fault: Option<Exn>, insert: Result<Stamps>)
    requires CreateProfile(profiles, userId, username, fault, insert).result.Ok?
    ensures var c := CreateProfile(profiles, userId, username, fault, insert);
            GetProfile(c.table, userId, None).result == c.result
  {
  }

  /** The object spread `{...row, ...patch}` over a profile row. */
  function Patched(row: Profile, patch: ProfilePatch): (r: Profile)
    // a field changes only when the patch mentions it
    ensures r.id != row.id ==> patch.id.Some?
    ensures r.username != row.username ==> patch.username.Some?
    ensures r.createdAt != row.createdAt ==> patch.createdAt.Some?
    ensures r.updatedAt != row.updatedAt ==> patch.updatedAt.Some?
    ensures patch == ProfilePatch(None, None, None, None) ==> r == row
  {
    Profile(
      if patch.id.Some? then patch.id.value else row.id,
      if patch.username.Some? then patch.username.value else row.username,
      if patch.createdAt.Some? then patch.createdAt.value else row.createdAt,
      if patch.updatedAt.Some? then patch.updatedAt.value else row.updatedAt)
  }

  /** The fields a patch mentions are the patch's; every other field is the row's. */
  lemma PatchedOverrides(row: Profile, patch: ProfilePatch)
    ensures var r := Patched(row, patch);
            && (patch.id.Some? ==> r.id == patch.id.value) && (patch.id.None? ==> r.id == row.id)
            && (patch.username.Some? ==> r.username == patch.username.value)
            && (patch.username.None? ==> r.username == row.username)
            && (patch.createdAt.Some? ==> r.createdAt == patch.createdAt.value)
            && (patch.createdAt.None? ==> r.createdAt == row.createdAt)
            && (patch.updatedAt.Some? ==> r.updatedAt == patch.updatedAt.value)
            && (patch.updatedAt.None? ==> r.updatedAt == row.updatedAt)
    ensures Patched(Patched(row, patch), patch) == Patched(row, patch)
  {
  }

  /**
   `updateProfile`: apply the patch to the row whose id matches. Zero matched
   rows make `.single()` fail; a patch that moves the row onto another
   existing id violates the primary key. Only the matching row changes.
   */
  function UpdateProfile(
    profiles: ProfileTable, userId: string, patch: ProfilePatch, fault: Option<Exn>): (r: Reply<ProfileTable, Profile>)
    ensures r.calls == [ProfilesUpdate(userId, patch)]
    ensures r.result.Err? ==> r.table == profiles
    ensures fault.Some? ==> r.result == Err(fault.value)
    // moving the row onto another existing id violates the primary key
    ensures fault.None? && userId in profiles
            && Patched(profiles[userId], patch).id != userId && Patched(profiles[userId], patch).id in profiles ==>
      r.result == Err(UniqueViolation)
    ensures fault.None? && userId !in profiles ==> r.result == Err(NotSingleRow)
    ensures r.result.Ok? ==>
      && userId in profiles
      && r.result.value == Patched(profiles[userId], patch)
      && r.table.Keys == profiles.Keys - {userId} + {r.result.value.id}
      && r.table[r.result.value.id] == r.result.value
    // every other row keeps its key and its contents
    ensures r.result.Ok? ==>
      forall k :: k in profiles && k != userId ==> k in r.table && r.table[k] == profiles[k]
    ensures KeyedById(profiles) ==> KeyedById(r.table)
    ensures KeyedById(profiles) && fault.None? && userId in profiles && (patch.id.None? || patch.id.value == userId)
      ==> r.result.Ok?
  {
    var calls := [ProfilesUpdate(userId, patch)];
    if fault.Some? then Reply(Err(fault.value), profiles, calls)
    else if userId !in profiles then Reply(Err(NotSingleRow), profiles, calls)
    else
      var row := Patched(profiles[userId], patch);
      if row.id != userId && row.id in profiles then Reply(Err(UniqueViolation), profiles, calls)
      else Reply(Ok(row), (profiles - {userId})[row.id := row], calls)
  }

  // ---------------------------------------------------------- visualizations

  predicate HasId(rows: VisualizationTable, id: string)
  {
    exists i :: 0 <= i < |rows| && rows[i].id == id
  }

  /** The primary-key invariant of the visualizations table. */
  predicate UniqueIds(rows: VisualizationTable)
  {
    forall i, j :: 0 <= i < j < |rows| ==> rows[i].id != rows[j].id
  }

  /**
   `createVisualization`: insert one row with the given owner, question,
   answer and descriptor; the database assigns its id and timestamps.
   */
  function CreateVisualization(
    rows: VisualizationTable, userId: string, question: string, answer: string, data: Descriptor,
    insert: Result<Assigned>): (r: Reply<VisualizationTable, Visualization>)
    ensures r.calls == [VisualizationsInsert(userId, question, answer, data)]
    ensures r.result.Err? ==> r.table == rows
    ensures r.result.Ok? ==>
      && r.table == rows + [r.result.value]
      && r.result.value.userId == userId && r.result.value.question == question
      && r.result.value.answer == answer && r.result.value.data == data
      && !HasId(rows, r.result.value.id)
    ensures r.result.Ok? <==> insert.Ok? && !HasId(rows, insert.value.id)
    ensures insert.Err? ==> r.result == Err(insert.error)
    // the stored and returned row carries the id and timestamps the database assigned
    ensures r.result.Ok? ==>
      r.result.value == Visualization(insert.value.id, userId, question, answer, data, insert.value.createdAt, insert.value.updatedAt)
    ensures insert.Ok? && HasId(rows, insert.value.id) ==> r.result == Err(UniqueViolation)
  {
    var calls := [VisualizationsInsert(userId, question, answer, data)];
    match insert
    case Err(e) => Reply(Err(e), rows, calls)
    case Ok(a) =>
      if HasId(rows, a.id) then Reply(Err(UniqueViolation), rows, calls)
      else
        var row := Visualization(a.id, userId, question, answer, data, a.createdAt, a.updatedAt);
        Reply(Ok(row), rows + [row], calls)
  }

  /** An insert keeps the primary key unique. */
  lemma CreateVisualizationKeepsIdsUnique(
    rows: VisualizationTable, userId: string, question: string, answer: string, data: Descriptor,
    insert: Result<Assigned>)
    requires UniqueIds(rows)
    ensures UniqueIds(CreateVisualization(rows, userId, question, answer, data, insert).table)
  {
  }

  /** `.eq(column, value)`: the rows whose column holds `value`, in table order. */
  function Where(rows: VisualizationTable, c: Column, value: string): (r: VisualizationTable)
    ensures forall i :: 0 <= i < |r| ==> ColumnValue(r[i], c) == value
    ensures forall v :: multiset(r)[v] == if ColumnValue(v, c) == value then multiset(rows)[v] else 0
  {
    if rows == [] then []
    else
      var rest := Where(rows[1..], c, value);
      assert rows == [rows[0]] + rows[1..];
      if ColumnValue(rows[0], c) == value then [rows[0]] + rest else rest
  }

  /** Rows ordered by `created_at`, newest first. */
  predicate NewestFirst(vs: seq<Visualization>)
  {
    forall i, j :: 0 <= i < j < |vs| ==> vs[i].createdAt >= vs[j].createdAt
  }

  function InsertByNewest(v: Visualization, vs: seq<Visualization>): (r: seq<Visualization>)
    requires NewestFirst(vs)
    ensures NewestFirst(r)
    ensures multiset(r) == multiset(vs) + multiset{v}
    ensures r[0] == v || (vs != [] && r[0] == vs[0])
  {
    if vs == [] || v.createdAt >= vs[0].createdAt then
      ConsNewestFirst(v, vs);
      [v] + vs
    else
      var rest := InsertByNewest(v, vs[1..]);
      assert vs == [vs[0]] + vs[1..];
      assert multiset([vs[0]] + rest) == multiset{vs[0]} + multiset(rest);
      ConsNewestFirst(vs[0], rest);
      [vs[0]] + rest
  }

  /** Putting a row no older than the head in front keeps the order. */
  lemma ConsNewestFirst(x: Visualization, vs: seq<Visualization>)
    requires NewestFirst(vs) && (vs == [] || x.createdAt >= vs[0].createdAt)
    ensures NewestFirst([x] + vs)
  {
    var r := [x] + vs;
    forall i, j | 0 <= i < j < |r|
      ensures r[i].createdAt >= r[j].createdAt
    {
      if i == 0 {
        assert r[j] == vs[j - 1];
        assert vs[0].createdAt >= vs[j - 1].createdAt || j == 1;
      } else {
        assert r[i] == vs[i - 1] && r[j] == vs[j - 1];
      }
    }
  }

  /** `.order('created_at', { ascending: false })`. */
  function SortByNewest(vs: seq<Visualization>): (r: seq<Visualization>)
    ensures NewestFirst(r)
    ensures multiset(r) == multiset(vs)
  {
    if vs == [] then []
    else
      assert vs == [vs[0]] + vs[1..];
      InsertByNewest(vs[0], SortByNewest(vs[1..]))
  }

  /**
   `getVisualizations`: every row owned by `userId` (each as often as it is
   stored), no other row, newest first. The order among rows with equal
   `created_at` is the database's choice; the model returns one admissible
   order.
   */
  function GetVisualizations(rows: VisualizationTable, userId: string, fault: Option<Exn>)
    : (r: Reply<VisualizationTable, seq<Visualization>>)
    ensures r.table == rows && r.calls == [VisualizationsSelectByUser(userId)]
    ensures r.result.Ok? <==> fault.None?
    ensures r.result.Err? ==> r.result.error == fault.value
    ensures r.result.Ok? ==> NewestFirst(r.result.value)
    ensures r.result.Ok? ==>
      forall v :: multiset(r.result.value)[v] == if v.userId == userId then multiset(rows)[v] else 0
  {
    var calls := [VisualizationsSelectByUser(userId)];
    if fault.Some? then Reply(Err(fault.value), rows, calls)
    else Reply(Ok(SortByNewest(Where(rows, UserIdColumn, userId))), rows, calls)
  }

  /** The listing holds exactly the stored rows of that owner. */
  lemma HistoryMembership(rows: VisualizationTable, userId: string)
    ensures var r := GetVisualizations(rows, userId, None).result.value;
            forall v :: v in r <==> v in rows && v.userId == userId
  {
    var r := GetVisualizations(rows, userId, None).result.value;
    forall v
      ensures v in r <==> v in rows && v.userId == userId
    {
      assert v in r <==> multiset(r)[v] > 0;
      assert v in rows <==> multiset(rows)[v] > 0;
    }
  }

  /** No row carries the value: the filter is empty. */
  lemma WhereNone(rows: VisualizationTable, c: Column, value: string)
    requires forall i :: 0 <= i < |rows| ==> ColumnValue(rows[i], c) != value
    ensures Where(rows, c, value) == []
  {
  }

  /** With unique ids, filtering on a stored row's id yields just that row. */
  lemma {:induction false} WhereUniqueId(rows: VisualizationTable, i: int)
    requires UniqueIds(rows) && 0 <= i < |rows|
    ensures Where(rows, IdColumn, rows[i].id) == [rows[i]]
  {
    if i == 0 {
      WhereNone(rows[1..], IdColumn, rows[0].id);
    } else {
      WhereUniqueId(rows[1..], i - 1);
    }
  }

  /**
   `getVisualization`: the single row with that id; `.single()` fails when
   there is no such row.
   */
  function GetVisualization(rows: VisualizationTable, id: string, fault: Option<Exn>)
    : (r: Reply<VisualizationTable, Visualization>)
    ensures r.table == rows && r.calls == [VisualizationsSelectById(id)]
    ensures r.result.Ok? ==> r.result.value in rows && r.result.value.id == id
    ensures fault.None? && !HasId(rows, id) ==> r.result == Err(NotSingleRow)
    ensures fault.Some? ==> r.result == Err(fault.value)
  {
    var calls := [VisualizationsSelectById(id)];
    if fault.Some? then Reply(Err(fault.value), rows, calls)
    else
      var matches := Where(rows, IdColumn, id);
      if |matches| == 1 then
        assert matches[0] in multiset(matches);
        Reply(Ok(matches[0]), rows, calls)
      else
        Reply(Err(NotSingleRow), rows, calls)
  }

  /** With unique ids, `getVisualization` of a stored row's id returns that row. */
  lemma GetVisualizationFindsStoredRow(rows: VisualizationTable, i: int)
    requires UniqueIds(rows) && 0 <= i < |rows|
    ensures GetVisualization(rows, rows[i].id, None).result == Ok(rows[i])
  {
    WhereUniqueId(rows, i);
  }

  /** A created row can be read back by its id while the ids stay unique. */
  lemma CreateThenGetVisualization(
    rows: VisualizationTable, userId: string, question: string, answer: string, data: Descriptor,
    insert: Result<Assigned>)
    requires UniqueIds(rows)
    requires CreateVisualization(rows, userId, question, answer, data, insert).result.Ok?
    ensures var c := CreateVisualization(rows, userId, question, answer, data, insert);
            GetVisualization(c.table, c.result.value.id, None).result == c.result
  {
    var c := CreateVisualization(rows, userId, question, answer, data, insert);
    CreateVisualizationKeepsIdsUnique(rows, userId, question, answer, data, insert);
    GetVisualizationFindsStoredRow(c.table, |rows|);
  }
}

=== FILE: text.dfy ===
/**
 The two string operations of the JavaScript standard library the app relies
 on: `String.prototype.trim` (the dashboard's blank-question guard) and
 `String.prototype.includes` (the sign-up error test).
 */
module Text {

  /**
   The characters `trim` removes: the ECMAScript WhiteSpace code points
   (tab, vertical tab, form feed, space, no-break space, byte-order mark and
   the Unicode space separators) and the LineTerminator code points.
   */
  predicate IsSpace(c: char)
  {
    || c == '\t' || c == '\n' || c == '\U{000B}' || c == '\U{000C}' || c == '\r'
    || c == ' ' || c == '\U{00A0}' || c == '\U{1680}'
    || ('\U{2000}' <= c <= '\U{200A}')
    || c == '\U{2028}' || c == '\U{2029}' || c == '\U{202F}' || c == '\U{205F}'
    || c == '\U{3000}' || c == '\U{FEFF}'
  }

  predicate AllSpace(s: string)
  {
    forall i :: 0 <= i < |s| ==> IsSpace(s[i])
  }

  /** `s` without its leading white space. */
  function TrimStart(s: string): string
  {
    if s == [] || !IsSpace(s[0]) then s else TrimStart(s[1..])
  }

  /** `s` without its trailing white space. */
  function TrimEnd(s: string): string
  {
    if s == [] || !IsSpace(s[|s| - 1]) then s else TrimEnd(s[..|s| - 1])
  }

  /** `TrimStart` drops exactly the leading run of white space: the result is the suffix from the first non-space. */
  lemma {:induction false} TrimStartDropsLeadingSpace(s: string)
    ensures |TrimStart(s)| <= |s| && TrimStart(s) == s[|s| - |TrimStart(s)|..]
    ensures AllSpace(s[..|s| - |TrimStart(s)|])
    ensures TrimStart(s) == [] || !IsSpace(TrimStart(s)[0])
  {
    if s != [] && IsSpace(s[0]) {
      TrimStartDropsLeadingSpace(s[1..]);
      var r := TrimStart(s[1..]);
      assert s[..|s| - |r|] == [s[0]] + s[1..][..|s[1..]| - |r|];
    }
  }

  /** `TrimEnd` drops exactly the trailing run of white space: the result is the prefix up to the last non-space. */
  lemma {:induction false} TrimEndDropsTrailingSpace(s: string)
    ensures |TrimEnd(s)| <= |s| && TrimEnd(s) == s[..|TrimEnd(s)|]
    ensures AllSpace(s[|TrimEnd(s)|..])
    ensures TrimEnd(s) == [] || !IsSpace(TrimEnd(s)[|TrimEnd(s)| - 1])
  {
    if s != [] && IsSpace(s[|s| - 1]) {
      TrimEndDropsTrailingSpace(s[..|s| - 1]);
      var r := TrimEnd(s[..|s| - 1]);
      assert s[|r|..] == s[..|s| - 1][|r|..] + [s[|s| - 1]];
    }
  }

  /** `s.trim()`. */
  function Trim(s: string): string
  {
    TrimEnd(TrimStart(s))
  }

  /** The result of `trim` is a slice of its input with no white space at either end. */
  lemma TrimIsInnerSlice(s: string)
    ensures exists i, j :: 0 <= i <= j <= |s| && Trim(s) == s[i..j]
    ensures Trim(s) == [] || (!IsSpace(Trim(s)[0]) && !IsSpace(Trim(s)[|Trim(s)| - 1]))
  {
    var t := TrimStart(s);
    TrimStartDropsLeadingSpace(s);
    TrimEndDropsTrailingSpace(t);
    var i := |s| - |t|;
    var r := TrimEnd(t);
    assert r == s[i..i + |r|];
  }

  /** `!s.trim()` holds, i.e. the trimmed text is empty, exactly when every character is white space. */
  lemma {:induction false} TrimEmptyIffAllSpace(s: string)
    ensures Trim(s) == [] <==> AllSpace(s)
  {
    var t := TrimStart(s);
    TrimStartDropsLeadingSpace(s);
    TrimEndDropsTrailingSpace(t);
    if !AllSpace(s) {
      var k :| 0 <= k < |s| && !IsSpace(s[k]);
      assert k >= |s| - |t|;
      assert t[k - (|s| - |t|)] == s[k];
      assert t != [] && !IsSpace(t[0]);
    }
  }

  /** `s.includes(sub)`: `sub` is a prefix of some suffix of `s`. */
  predicate Includes(s: string, sub: string)
  {
    sub <= s || (s != [] && Includes(s[1..], sub))
  }

  /** `sub` occurs in `s` starting at index `i`. */
  predicate OccursAt(s: string, sub: string, i: int)
  {
    0 <= i <= |s| - |sub| && s[i..i + |sub|] == sub
  }

  /** `includes` finds `sub` exactly when it occurs in `s` as a contiguous slice. */
  lemma {:induction false} IncludesIffOccurs(s: string, sub: string)
    ensures Includes(s, sub) <==> exists i :: OccursAt(s, sub, i)
  {
    if sub <= s {
      assert OccursAt(s, sub, 0);
    } else if s != [] {
      IncludesIffOccurs(s[1..], sub);
      if Includes(s[1..], sub) {
        var i :| OccursAt(s[1..], sub, i);
        assert OccursAt(s, sub, i + 1);
      }
      if exists i :: OccursAt(s, sub, i) {
        var i :| OccursAt(s, sub, i);
        assert OccursAt(s[1..], sub, i - 1);
      }
    }
  }
}

=== FILE: viewer.dfy ===
/**
 The part of the 3D viewer that interprets a descriptor: the choice of
 geometry from the descriptor's `geometry` string and the material colour.
 Rendering itself and the degree-to-radian conversion of the rotation are
 not modelled.
 */
module Viewer {
  import opened Base
  import Api

  /** The four geometries the viewer builds, with the arguments it passes them. */
  datatype Geometry =
    | BoxGeometry(width: real, height: real, depth: real)
    | SphereGeometry(radius: real, widthSegments: nat, heightSegments: nat)
    | CylinderGeometry(radiusTop: real, radiusBottom: real, height: real, radialSegments: nat)
    | TorusGeometry(radius: real, tube: real, radialSegments: nat, tubularSegments: nat)

  const UnitBox := BoxGeometry(1.0, 1.0, 1.0)
  const Sphere := SphereGeometry(1.0, 32, 32)
  const Cylinder := CylinderGeometry(1.0, 1.0, 2.0, 32)
  const Torus := TorusGeometry(1.0, 0.3, 16, 100)

  const DefaultColor := "#2563EB"

  /**
   `getGeometry()`: the three named shapes have their own case; every other
   string, `cube` included, falls back to the unit box.
   */
  function GetGeometry(name: string): (g: Geometry)
    ensures g == Sphere <==> name == "sphere"
    ensures g == Cylinder <==> name == "cylinder"
    ensures g == Torus <==> name == "torus"
    ensures g == UnitBox <==> name != "sphere" && name != "cylinder" && name != "torus"
  {
    match name
    case "sphere" => Sphere
    case "cylinder" => Cylinder
    case "torus" => Torus
    case _ => UnitBox
  }

  /** The shape name of the generator's list that each built geometry stands for. */
  function ShapeName(g: Geometry): string
  {
    match g
    case BoxGeometry(_, _, _) => "cube"
    case SphereGeometry(_, _, _) => "sphere"
    case CylinderGeometry(_, _, _, _) => "cylinder"
    case TorusGeometry(_, _, _, _) => "torus"
  }

  /**
   Every shape the generator can pick is rendered as a distinct geometry
   that names it back; `cube` is the one shape served by the fallback.
   */
  lemma GeneratorShapesRoundTrip(name: string)
    requires name in Api.Shapes
    ensures ShapeName(GetGeometry(name)) == name
    ensures GetGeometry(name) == UnitBox <==> name == "cube"
  {
  }

  /** `data.color || '#2563EB'`: an absent or empty colour gives the default. */
  function MaterialColor(color: Option<string>): (c: string)
    ensures c != []
    ensures color.Some? && color.value != [] ==> c == color.value
    ensures color.None? || color.value == [] ==> c == DefaultColor
  {
    if color.Some? && color.value != [] then color.value else DefaultColor
  }

  /** What the viewer draws: a mesh with the descriptor's geometry, placement and colour. */
  datatype Mesh = Mesh(geometry: Geometry, position: Vec3, scale: Vec3, color: string)

  function Render(d: Descriptor): (m: Mesh)
    ensures m.position == d.position && m.scale == d.scale
  {
    Mesh(GetGeometry(d.geometry), d.position, d.scale, MaterialColor(d.color))
  }

  /** A generated descriptor is drawn at the origin, unit size, in the colour the generator chose. */
  lemma RenderGenerated(question: string, shapeDraw: real, colorDraw: real, rotation: Vec3)
    requires 0.0 <= shapeDraw < 1.0 && 0.0 <= colorDraw < 1.0
    ensures var d := Api.GenerateVisualization(question, shapeDraw, colorDraw, rotation).visualizationData;
            var m := Render(d);
            && m.color == d.color.value && m.color in Api.Colors
            && ShapeName(m.geometry) == d.geometry
            && m.position == Vec3(0.0, 0.0, 0.0) && m.scale == Vec3(1.0, 1.0, 1.0)
  {
    var d := Api.GenerateVisualization(question, shapeDraw, colorDraw, rotation).visualizationData;
    GeneratorShapesRoundTrip(d.geometry);
  }
}
